=== FILE: README.md ===
# Quizme exam rules in Dafny

Quizme is an exam platform: instructors create exams of MCQ and coding questions, and students open them through an exam code. This project models the decision and list-handling rules in its backend views and exam-form components as pure Dafny functions, and proves what they promise:

- **Exam access** (`ExamAccess`): who may read an exam and what they see. The retrieve endpoint tries three grants in order: the owner, then a group member, then a whitelist-pattern match. A whitelisted reader gets an exam whose MCQ answers are masked, and only inside the window from the start date to the start date plus the duration. The duration endpoint uses the same grants with no window.
- **Exam writes** (`ExamWrite`): creation under the subscription quota, the update guard for started exams, the minutes-to-seconds conversion, and the invitation emails for literal whitelist entries (see Findings).
- **Subscriptions** (`Subscriptions`): listing, subscribe classification, cancel and current.
- **Exam form** (`QuestionForm`, `McqChoices`, `Tags`): the question list handlers, the MCQ choice list and the comma-separated tag input.
- **Results** (`Ranking`): normalising the fetched attempts and ranking them by score with a stable sort.
- Support modules: `Glob` (Python's `fnmatch` with `*`, `?` and `[...]` classes), `Decimal` (Python's `str(int)`, `isnumeric`, `int()` on ASCII digits and `int()` of a float), `Basics` (user ids and instants), `Lists` and `Optional`.

Modelling choices:

- The clock, ORM lookups, serializer validation and the email task become parameters or results.
- `retrieve` reads the clock twice, once for the start check and once for the expiry check. The two readings are the parameters `now` and `later`.
- Instants and durations are whole seconds.
- The views read `plan.exam_limit`, `exams_created`, `start_date`, `group_name`, `user_id` and `title`. `backend/subscriptions/models.py` names the limit `max_exams` and has no `exams_created` counter, and `backend/exam/models.py` has none of those exam fields. The records here follow the views.
- A subscription row is unique per user (the one-to-one `user` field). The model still keeps the table as a sequence, so that the ORM's "several rows" failure of `get(user=..., is_active=True)` can be stated. The `OneRowPerUser` predicate shows that this failure cannot happen in a consistent table.
- Errors the source does not catch are modelled as explicit server-error results:
  - a missing start date past the first two grants;
  - an unparsable duration on create;
  - an unknown plan id;
  - several active subscriptions.
- The MCQ padding effect appends `{desc: "", correct: false}`, while Add Choice appends `{desc: "", isCorrect: false}`. `FormChoice` therefore carries both keys as optional fields.
- The choice list is bound to the form's root `choices` path.

## Model

| member | source | states |
|---|---|---|
| Glob.LiteralMatchesOnlyItself | backend/exam_v2/views.py:76-77 | a whitelist pattern without `*`, `?` or `[` matches an email exactly when it equals it |
| Glob.StarMatchesEverything | backend/exam_v2/views.py:76-77 | the pattern `*` admits every email |
| Glob.ClassClose | backend/exam_v2/views.py:76-77 | `fnmatch` closes a class at the first `]` after an optional leading `!` and an optional leading `]`, so the class body is never empty; with no such `]` the `[` is an ordinary character |
| Glob.PlainItems | backend/exam_v2/views.py:76-77 | a class body without ranges admits exactly the characters it lists |
| Glob.SetClassMatches | backend/exam_v2/views.py:76-77 | a class of plain characters matches a first character exactly when it is listed, and the rest of the pattern must match the rest |
| Glob.QuestionMarksMatchLength | backend/exam_v2/views.py:76-77 | a pattern of only `?` matches exactly the emails of its length |
| Decimal.Digits | backend/exam_v2/views.py:155 | `str(n)` of a natural is a non-empty digit string without a leading zero |
| Decimal.TruncateTowardZero | backend/exam_v2/views.py:121 | `int()` of a float drops the fraction toward zero: a non-negative float lands on the integer at or below it and a negative one on the integer at or above it, within one |
| Decimal.ParseInt | backend/exam_v2/views.py:121 | `int(text)` accepts digit strings with their value, and a `-` or `+` followed by digits with the negated or unchanged value; it accepts nothing else, and text starting with anything else is rejected |
| Decimal.ValueOfDigits | backend/exam_v2/views.py:155-156 | reading back the decimal spelling of a natural gives the natural |
| Decimal.ParseIntOfString | backend/exam_v2/views.py:155-156 | `int(str(n)) == n` for every integer |
| Decimal.StringOfIntIsNumeric | backend/exam_v2/views.py:155 | `str(n).isnumeric()` holds exactly for `n >= 0` |
| Lists.RemoveAt | frontend/src/components/FormSubComponents/Exam/QuestionsStep.tsx:98 | removing index i drops exactly that element; earlier ones keep their place, later ones shift down by one; multiset loses only that element |
| Lists.RemoveAfterAppend | frontend/src/components/FormSubComponents/Exam/QuestionsStep.tsx:81-100 | removing the element just appended restores the list |
| Subscriptions.ActiveIndices | backend/subscriptions/views.py:52 | lists, in increasing order, exactly the positions of the user's active subscriptions |
| Subscriptions.ActiveLookup | backend/subscriptions/views.py:51-58 | not-found iff the user has no active row; a unique hit is active and no other row is; several means two active rows exist |
| Subscriptions.OneRowPerUserNeverSeveral | backend/subscriptions/models.py:15 | with one subscription row per user, the active lookup never finds several rows |
| Subscriptions.OwnSubscriptions | backend/subscriptions/views.py:17-18 | a user sees only rows with their user id, and each of their rows as often as it is stored |
| Subscriptions.Cancel | backend/subscriptions/views.py:49-58 | cancels iff there is a unique active row; that row becomes inactive with end date now and every other row is unchanged; not-found iff no active row, and then nothing changes |
| Subscriptions.CancelLeavesNoActive | backend/subscriptions/views.py:51-58 | after a cancel the user has no active subscription and a second cancel answers not-found |
| Subscriptions.CancelKeepsOtherUsers | backend/subscriptions/views.py:51-56 | cancelling leaves every other user's active rows exactly as they were |
| Subscriptions.CancelKeepsOneRowPerUser | backend/subscriptions/views.py:53-55 | cancel preserves the one-row-per-user invariant |
| Subscriptions.CurrentSubscription | backend/subscriptions/views.py:60-67 | returns the user's unique active subscription when there is one, not-found iff there is none, and a server error iff several rows are active, which the one-row-per-user table rules out |
| Subscriptions.FindPlan | backend/subscriptions/views.py:23-24 | finds a stored plan with the requested id, or reports that none exists |
| Subscriptions.Subscribe | backend/subscriptions/views.py:21-39 | an unknown plan id fails first (uncaught lookup error); for an existing plan: already-subscribed iff the active plan has the requested id, switch iff the unique active plan differs (carrying the old and the new plan), new iff there is no active subscription (carrying the requested plan), and a server error iff several rows are active; the signature writes nothing |
| Subscriptions.SubscribeAgreesWithCurrent | backend/subscriptions/views.py:21-67 | for an existing plan, subscribe answers already-subscribed iff current shows that plan, and new iff current is not-found |
| Subscriptions.SubscribeAfterCancelIsNew | backend/subscriptions/views.py:21-58 | after a successful cancel, subscribing to any existing plan is classified as new |
| ExamAccess.FirstMatch | backend/exam_v2/views.py:75-77 | finds the first whitelist pattern the email matches, or reports that none matches |
| ExamAccess.RedactQuestion | backend/exam_v2/views.py:85-88 | keeps desc, type, grade and test cases; a missing or empty choice list is untouched; otherwise same number of choices, each desc kept, flag masked, other keys dropped |
| ExamAccess.Redact | backend/exam_v2/views.py:83-94 | only the questions change, one redacted question per original, in order |
| ExamAccess.RedactHidesAnswers | backend/exam_v2/views.py:86-88 | no choice of a redacted exam carries its correctness flag |
| ExamAccess.RedactIdempotent | backend/exam_v2/views.py:85-88 | redacting twice equals redacting once |
| ExamAccess.Retrieve | backend/exam_v2/views.py:58-96 | missing exam is not-found; owner, then non-empty matching group, get the full exam with no time check; a missing start date then fails; a whitelist match is refused before the start and after start plus duration, and otherwise gets the redacted exam; everyone else is refused |
| ExamAccess.OnlyOwnerOrGroupSeeAnswers | backend/exam_v2/views.py:58-94 | a served reader who is neither owner nor group member sees no answers |
| ExamAccess.ExamDuration | backend/exam_v2/views.py:233-254 | the duration is returned iff the user is owner, group member or whitelisted, with no time window |
| ExamAccess.RetrieveAgreesWithDuration | backend/exam_v2/views.py:237-254 | whoever may read the exam may read its duration; refused the duration means refused the exam (or failure on a missing start date); duration access inside the window means exam access |
| ExamAccess.WindowBoundaries | backend/exam_v2/views.py:70-81 | a whitelisted reader is served at the start instant and at the expiry instant, refused one second before the start and one second after expiry |
| ExamWrite.Emailed | backend/exam_v2/views.py:187-199 | the sender emails, in whitelist order, every entry its skip test passes over, each as many times as it occurs, and no skipped entry |
| ExamWrite.InvitedEmailsAsWritten | backend/exam_v2/views.py:189-197 | as written, only entries containing `*` or `?` are skipped; every other entry is emailed as many times as it occurs |
| ExamWrite.BracketEntryMissesItself | backend/exam_v2/views.py:76-77 | `fnmatch` does not match the address `[ab]@x.com` against the identical pattern, whose `[ab]` is a class |
| ExamWrite.BracketInviteeRefused | backend/exam_v2/views.py:189-197 | as written, the entry `[ab]@x.com` is emailed, yet its own address does not pass the whitelist grant |
| ExamWrite.InvitedEmails | backend/exam_v2/views.py:189-197 | as intended, entries containing `*`, `?` or `[` are skipped; every other entry is emailed as many times as it occurs |
| ExamWrite.EmailedAppend | backend/exam_v2/views.py:187-199 | emailing splits over concatenated whitelists, so emails go out in whitelist order |
| ExamWrite.Invitations | backend/exam_v2/views.py:192-197 | one invitation per emailed entry, carrying the exam's title, code and start date |
| ExamWrite.InviteeIsWhitelisted | backend/exam_v2/views.py:189-197 | with the intended sender, a user whose email was invited passes the whitelist grant |
| ExamWrite.IntOf | backend/exam_v2/views.py:121-122 | `int()` of a request value: a missing key fails; an integer is taken as is; text is parsed as `int(text)` (a digit string in base 10); a float is truncated toward zero; `true` and `false` become 1 and 0 |
| ExamWrite.CountOwned | backend/exam_v2/views.py:128 | counts the user's exams: at most the table size, zero iff the user owns none |
| ExamWrite.CountOwnedAppend | backend/exam_v2/views.py:128-136 | storing one more exam raises the owner's count by one and nobody else's |
| ExamWrite.TimedeltaRange | backend/exam_v2/views.py:122 | `timedelta(minutes=m)` accepts exactly the minute counts from -999999999 days up to just below 1000000000 days |
| ExamWrite.Create | backend/exam_v2/views.py:120-139 | a duration `int()` rejects, or one too large for a `timedelta`, fails first; no active subscription is denied; several active subscriptions fail; with one, denied iff the plan limit is non-zero and reached; otherwise 400 or 201; on 201 the exam is owned by the requester with the duration in seconds, the subscription's exams_created is the old count plus one, other rows are unchanged and the whitelist is invited |
| ExamWrite.CreateKeepsCountAndQuota | backend/exam_v2/views.py:128-137 | after creation exams_created equals the number of exams the user owns, and never exceeds a non-zero plan limit |
| ExamWrite.ConvertibleWhole | backend/exam_v2/views.py:155 | an integer duration passes the truthy-and-numeric test exactly when it is positive |
| ExamWrite.Update | backend/exam_v2/views.py:151-157 | rejected iff the start date is before now; a positive integer or a digit string is converted from minutes to seconds, failing with a server error iff it is too large for a `timedelta`, and a converted value is always `int()` of the input times 60; zero, negatives, other text, floats, booleans and a missing value are passed on as sent |
| Tags.Split | frontend/src/components/FormSubComponents/Exam/QuestionsStep.tsx:55 | splitting on `,` yields at least one piece and no piece contains a comma |
| Tags.JoinSplit | frontend/src/components/FormSubComponents/Exam/QuestionsStep.tsx:54-55 | joining the pieces with `,` gives back the input |
| Tags.SplitJoin | frontend/src/components/FormSubComponents/Exam/QuestionsStep.tsx:54-55 | splitting the join of comma-free pieces gives back the pieces |
| Tags.TrimStart | frontend/src/components/FormSubComponents/Exam/QuestionsStep.tsx:56 | drops exactly the leading white space |
| Tags.TrimEnd | frontend/src/components/FormSubComponents/Exam/QuestionsStep.tsx:56 | drops exactly the trailing white space |
| Tags.Trim | frontend/src/components/FormSubComponents/Exam/QuestionsStep.tsx:56 | the result has no white space at either end and is the input minus white-space runs at both ends |
| Tags.TrimOfTrimmed | frontend/src/components/FormSubComponents/Exam/QuestionsStep.tsx:56 | trimming a string without surrounding white space leaves it unchanged |
| Tags.TrimAndDropEmpty | frontend/src/components/FormSubComponents/Exam/QuestionsStep.tsx:56-57 | every kept piece is non-empty and trimmed; comma-free input pieces give comma-free tags |
| Tags.ParseTags | frontend/src/components/FormSubComponents/Exam/QuestionsStep.tsx:53-57 | every parsed tag is non-empty, comma-free and without surrounding white space |
| Tags.ParseJoinedTags | frontend/src/components/FormSubComponents/Exam/QuestionsStep.tsx:53-57 | parsing the comma-join of well-formed tags gives back the same tags in the same order |
| Tags.ParseTagsSplitsAtComma | frontend/src/components/FormSubComponents/Exam/QuestionsStep.tsx:53-57 | the text before the first comma and the rest are parsed independently and concatenated in order |
| Tags.TrimAndDropEmptyAppend | frontend/src/components/FormSubComponents/Exam/QuestionsStep.tsx:56-57 | trimming and dropping empty pieces distributes over concatenation |
| McqChoices.PadChoices | frontend/src/components/FormSubComponents/Exam/Fields/MCQFields.tsx:25-31 | the padding loop leaves at least two choices; a list of two or more is unchanged; existing choices keep their positions and only `{desc: "", correct: false}` entries are appended |
| McqChoices.PaddedIdempotent | frontend/src/components/FormSubComponents/Exam/Fields/MCQFields.tsx:25-31 | padding an already padded list changes nothing |
| McqChoices.AddChoice | frontend/src/components/FormSubComponents/Exam/Fields/MCQFields.tsx:72 | appends exactly one `{desc: "", isCorrect: false}` and keeps the rest |
| McqChoices.RemoveChoice | frontend/src/components/FormSubComponents/Exam/Fields/MCQFields.tsx:97 | deletes exactly the entry at the index; the others keep their order |
| McqChoices.RemoveUndoesAdd | frontend/src/components/FormSubComponents/Exam/Fields/MCQFields.tsx:72-97 | removing the choice just added restores the list |
| QuestionForm.SeedQuestions | frontend/src/components/FormSubComponents/Exam/QuestionsStep.tsx:28-46 | an empty list receives exactly one default question; a non-empty list is untouched |
| QuestionForm.AppendQuestion | frontend/src/components/FormSubComponents/Exam/QuestionsStep.tsx:81-93 | adds exactly one default question at the end and keeps the others |
| QuestionForm.ResetQuestion | frontend/src/components/FormSubComponents/Exam/QuestionsStep.tsx:65-79 | the question becomes the default one with its own id (or `""`); the others are unchanged |
| QuestionForm.ResetIdempotent | frontend/src/components/FormSubComponents/Exam/QuestionsStep.tsx:65-79 | resetting twice equals resetting once |
| QuestionForm.RemoveQuestion | frontend/src/components/FormSubComponents/Exam/QuestionsStep.tsx:95-100 | no-op on a one-question list, otherwise exactly one question fewer; never empties the list |
| QuestionForm.RemovalsKeepOneQuestion | frontend/src/components/FormSubComponents/Exam/QuestionsStep.tsx:95-100 | any series of Remove clicks leaves at least one question and removes at most one per click |
| QuestionForm.RemoveUndoesAppend | frontend/src/components/FormSubComponents/Exam/QuestionsStep.tsx:81-100 | removing the question just added restores the list |
| QuestionForm.HandlersKeepListNonEmpty | frontend/src/components/FormSubComponents/Exam/QuestionsStep.tsx:28-109 | a seeded, non-empty list stays non-empty under every handler |
| QuestionForm.SelectFromBank | frontend/src/components/FormSubComponents/Exam/QuestionsStep.tsx:101-109 | appends one question copying the picked fields, with missing choices, test cases and code defaulted to empty |
| QuestionForm.SelectCompleteQuestion | frontend/src/components/FormSubComponents/Exam/QuestionsStep.tsx:101-109 | selecting a bank question that has all its lists appends that very question |
| QuestionForm.BlurredTags | frontend/src/components/FormSubComponents/Exam/QuestionsStep.tsx:48-60 | a list is kept as is, any non-text non-list value gives `[]`, text gives well-formed tags |
| QuestionForm.BlurTags | frontend/src/components/FormSubComponents/Exam/QuestionsStep.tsx:48-63 | only the blurred question's tags change, to the list form |
| QuestionForm.BlurTagsIdempotent | frontend/src/components/FormSubComponents/Exam/QuestionsStep.tsx:48-63 | leaving the tag input twice equals leaving it once |
| Ranking.Normalise | frontend/src/components/ExamResults/ExamAllStudent.tsx:18-19 | absent data gives no attempts, a single attempt becomes a one-element list, an array is kept |
| Ranking.Insert | frontend/src/components/ExamResults/ExamAllStudent.tsx:20 | inserting into a ranked list keeps it ranked and adds exactly that attempt |
| Ranking.SortByScore | frontend/src/components/ExamResults/ExamAllStudent.tsx:20 | the result is ordered by score, highest first, and is a permutation of the input |
| Ranking.Rank | frontend/src/components/ExamResults/ExamAllStudent.tsx:17-21 | the ranking is ordered by score, highest first, and is a permutation of the normalised attempts |
| Ranking.SortIsStable | frontend/src/components/ExamResults/ExamAllStudent.tsx:20 | attempts with equal scores keep their fetched order |
| Ranking.SortKeepsRanked | frontend/src/components/ExamResults/ExamAllStudent.tsx:20 | an already ranked list is returned unchanged |
| Ranking.ResultsPage | frontend/src/components/ExamResults/ExamAllStudent.tsx:23-61 | while loading only the spinner shows, and after a failed fetch only the error; otherwise the empty notice shows iff there are no attempts and the listing iff there are some; the listing shows the ranking and a total equal to its length, which is the number of fetched attempts |

## Left out

- Framework behaviour: DRF permission classes (`IsInstructor`, `IsOwner`), serializer field validation and output, and the ORM. The source's `get_object` lookup is the `found` parameter. Whether the serializer accepts a create request is the `valid` parameter.
- `list`, `partial_update`, `destroy` and `SubscriptionPlanViewSet`: these only delegate to the framework and contain no logic of their own.
- The body of `update` after the guard (`super().update`). The model returns the duration it would hand on.
- The Celery `.delay` call. Invitations are returned as a list instead.
- `Subscriptions.Subscribe`: the switch and new paths return `None`, which Django REST framework rejects, so the client gets a server error on both; payment is not written. The model returns the classification only, so `Switch`, `New` and `SubscribeAfterCancelIsNew` describe requests that fail.
- `ExamAccess.ExamDuration`: `ExamDurationSerializer` is not part of this model, so its serialized fields are not modelled. The granted response stands for them with the exam code and duration.
- `Glob`: ranges in a class follow regular-expression reading (`x-y`, with a leading or trailing `-` literal). A reversed range matches nothing, as Python 3.9 and later make it; earlier versions raise on it. The 3.9 splitting of runs such as `a-c-e` into hyphen chunks is not modelled separately. `os.path.normcase` is the identity, as on POSIX.
- `ExamWrite.Invitations`: follows the intended sender, which also skips entries containing `[`; the source as written also emails them (see Findings).
- `ExamWrite.IntOf`: JSON `null`, arrays and objects are not modelled; `int()` raises on each, like on a missing key. Floats are exact reals, so IEEE rounding and the `inf`/`nan` that `int()` rejects are not modelled. The limit Python 3.11 and later put on `int()` of text longer than 4300 digits depends on the interpreter version and is not modelled.
- `ExamAccess.Retrieve`: instants are unbounded integers, so the OverflowError that `start_date + duration` raises past year 9999 (or before year 1) is not modelled. For a reader who is neither owner nor group member, such an exam would fail with a server error rather than being refused or served.
- `Decimal.IntToString`: Python 3.11 and later also refuse `str(n)` beyond 4300 digits; this version-dependent limit is not modelled.
- `ExamWrite.Update`: for non-ASCII numerals, `isnumeric` and `int()` disagree. `"½"` passes the test and then `int()` raises, a server error; `"٣"` is converted to 180 seconds. The model sees only ASCII digits and passes other text on as sent. Request bodies are taken to be JSON: a form-encoded body is an immutable `QueryDict`, and the assignments to `request.data['duration']` in `create` and `update` would raise.
- `Decimal.ParseInt`: Python's `int()` also accepts surrounding white space and digit-group underscores, and `isnumeric` accepts non-ASCII numerals. Only ASCII digits with an optional sign are modelled.
- `Ranking`: scores are integers. `Number(score)` on non-numeric text (NaN) is not modelled.
- The input list is not mutated by the sort on a copy. Dafny sequences are values, so this needs no separate contract.
- React's effect scheduling, re-rendering and `window.scrollTo` after a bank selection.
- The list handlers receive only indices of rendered questions. Their `index < |list|` requirement reflects that.
- The webcam poller (`useWebCamPolling.ts`): timers, DOM video, canvas and network I/O.
- The `postData` helper: a thin HTTP wrapper.
- The view-only components: `App.tsx`, `main.tsx`, `navbar.tsx`, `ProfileForm.tsx`, `ReviewStep.tsx`, `MarkdownViewer.tsx`, `ParticipantsStep.tsx`, `QuestionFields.tsx` and `CodingFields.tsx`.

## Findings

| source | as written | input that shows it | evidently intended | confidence | as-written member | corrected member |
|---|---|---|---|---|---|---|
| backend/exam_v2/views.py:189-197 | the invitation sender skips only entries containing `*` or `?`, while `retrieve` matches the whitelist with `fnmatch`, which also reads `[...]` as a character class | whitelist `["[ab]@x.com"]` and a user with email `[ab]@x.com`: the user is invited, but `fnmatch` does not match the address against itself, so `retrieve` refuses them | invite only entries that `fnmatch` matches literally, skipping any with `*`, `?` or `[` | medium; not executed | ExamWrite.BracketInviteeRefused | ExamWrite.InviteeIsWhitelisted |

=== FILE: basics.dfy ===
/** Types shared by the subscription and exam endpoints. */
module Basics {
  /** A user's primary key. */
  type UserId = nat
  /** Instants are whole seconds. */
  type Instant = int
}

=== FILE: decimal.dfy ===
/** Python's decimal conversions as the exam views use them: `str(n)` on an
    integer, `str.isnumeric()` and `int(text)`, restricted to ASCII digits. */
module Decimal {
  import opened Optional

  predicate IsDigit(c: char) {
    '0' <= c <= '9'
  }

  predicate AllDigits(s: string) {
    forall k :: 0 <= k < |s| ==> IsDigit(s[k])
  }

  /** `str.isnumeric()`: non-empty and every character a digit. */
  predicate IsNumeric(s: string) {
    |s| > 0 && AllDigits(s)
  }

  function DigitChar(d: nat): (c: char)
    requires d < 10
    ensures IsDigit(c)
  {
    ('0' as int + d) as char
  }

  /** The number a digit string spells in base 10 (leading zeros allowed). */
  function Value(s: string): nat
    requires AllDigits(s)
    decreases |s|
  {
    if |s| == 0 then 0 else Value(s[..|s| - 1]) * 10 + (s[|s| - 1] as int - '0' as int)
  }

  /** The shortest base-10 spelling of `n`. */
  function Digits(n: nat): (r: string)
    ensures IsNumeric(r)
    ensures |r| > 1 ==> r[0] != '0'
    decreases n
  {
    if n < 10 then [DigitChar(n)] else Digits(n / 10) + [DigitChar(n % 10)]
  }

  /** Python's `str(n)` for an integer. */
  function IntToString(n: int): string {
    if n < 0 then "-" + Digits(-n) else Digits(n)
  }

  /** Python's `int(x)` for a float: the fraction is dropped, rounding toward
      zero on both sides of it. */
  function TruncateTowardZero(x: real): (r: int)
    ensures x >= 0.0 ==> 0 <= r && r as real <= x < r as real + 1.0
    ensures x < 0.0 ==> r <= 0 && r as real - 1.0 < x <= r as real
  {
    if x >= 0.0 then x.Floor else -((-x).Floor)
  }

  /** Python's `int(text)` for an optional sign followed by digits; any other
      text raises, which is None here. */
  function ParseInt(s: string): (r: Option<int>)
    ensures IsNumeric(s) ==> r == Some(Value(s))
    ensures r.Some? ==> |s| > 0
    ensures |s| > 0 && !IsDigit(s[0]) && s[0] != '-' && s[0] != '+' ==> r.None?
    ensures |s| > 1 && s[0] == '-' && IsNumeric(s[1..]) ==> r == Some(-(Value(s[1..]) as int))
    ensures |s| > 1 && s[0] == '+' && IsNumeric(s[1..]) ==> r == Some(Value(s[1..]))
    ensures r.Some? ==> IsNumeric(s) || (|s| > 1 && (s[0] == '-' || s[0] == '+') && IsNumeric(s[1..]))
  {
    if IsNumeric(s) then Some(Value(s))
    else if |s| > 1 && (s[0] == '-' || s[0] == '+') && IsNumeric(s[1..]) then
      var magnitude: int := Value(s[1..]);
      Some(if s[0] == '-' then -magnitude else magnitude)
    else None
  }

  /** Reading back the spelling of a number gives the number. */
  lemma {:induction false} ValueOfDigits(n: nat)
    ensures Value(Digits(n)) == n
    decreases n
  {
    if n >= 10 {
      var s := Digits(n);
      ValueOfDigits(n / 10);
      assert s[..|s| - 1] == Digits(n / 10);
    }
  }

  /** `int(str(n)) == n` for every integer. */
  lemma ParseIntOfString(n: int)
    ensures ParseInt(IntToString(n)) == Some(n)
  {
    if n < 0 {
      var s := IntToString(n);
      assert s[1..] == Digits(-n);
      assert !IsNumeric(s) by { assert !IsDigit(s[0]); }
      ValueOfDigits(-n);
    } else {
      ValueOfDigits(n);
    }
  }

  /** `str(n).isnumeric()` holds exactly for the non-negative integers. */
  lemma StringOfIntIsNumeric(n: int)
    ensures IsNumeric(IntToString(n)) <==> n >= 0
  {
    if n < 0 {
      assert !IsDigit(IntToString(n)[0]);
    }
  }
}

=== FILE: exam_access.dfy ===
/** Who may read an exam, and what they see: `ExamViewSet.retrieve` and
    `ExamDurationView.retrieve`. Both try three grants in order: the exam's
    owner, then a member of the exam's group, then a user whose email
    matches a whitelist pattern. Only `retrieve` checks the time window and
    hides the answers from whitelisted users. */
module ExamAccess {
  import opened Optional
  import opened Glob
  import opened Basics

  datatype User = User(id: UserId, email: string, category: string)

  /** A serialized choice's correctness flag: the stored boolean, or the
      `"****"` mask a whitelisted viewer receives. */
  datatype Correctness = Revealed(correct: bool) | Masked

  /** `extra` holds whatever other keys the serializer emits for a choice. */
  datatype Choice = Choice(desc: string, isCorrect: Correctness, extra: map<string, string>)

  datatype TestCase = TestCase(input: string, output: string)

  /** `choices` is None when the serialized question has no such key. */
  datatype Question = Question(
    desc: string,
    kind: string,
    grade: int,
    choices: Option<seq<Choice>>,
    testCases: seq<TestCase>)

  /** The exam fields the views read. `duration` is in seconds. */
  datatype Exam = Exam(
    code: string,
    owner: UserId,
    title: string,
    groupName: string,
    whitelist: seq<string>,
    startDate: Option<Instant>,
    duration: int,
    questions: seq<Question>)

  predicate IsOwner(exam: Exam, user: User) {
    exam.owner == user.id
  }

  /** An empty group name is falsy and grants nothing. */
  predicate InGroup(exam: Exam, user: User) {
    exam.groupName != "" && user.category == exam.groupName
  }

  predicate Whitelisted(exam: Exam, user: User) {
    exists k :: 0 <= k < |exam.whitelist| && Matches(user.email, exam.whitelist[k])
  }

  /** The first whitelist pattern the email matches, as the loop finds it. */
  function FirstMatch(patterns: seq<string>, email: string): (r: Option<nat>)
    ensures r.Some? ==> r.value < |patterns| && Matches(email, patterns[r.value])
    ensures r.Some? ==> forall k :: 0 <= k < r.value ==> !Matches(email, patterns[k])
    ensures r.None? ==> forall k :: 0 <= k < |patterns| ==> !Matches(email, patterns[k])
    decreases |patterns|
  {
    if |patterns| == 0 then None
    else if Matches(email, patterns[0]) then Some(0)
    else match FirstMatch(patterns[1..], email)
      case None => None
      case Some(k) => Some(k + 1)
  }

  // ---------------------------------------------------------------- redaction

  function MaskChoice(c: Choice): Choice {
    Choice(c.desc, Masked, map[])
  }

  /** `if choices := question.get('choices')`: a missing or empty list is
      falsy and left as it is; otherwise each choice keeps only its
      description and a masked flag. */
  function RedactQuestion(q: Question): (r: Question)
    ensures r.desc == q.desc && r.kind == q.kind && r.grade == q.grade && r.testCases == q.testCases
    ensures r.choices.Some? <==> q.choices.Some?
    ensures q.choices.None? || q.choices.value == [] ==> r == q
    ensures q.choices.Some? ==>
      && |r.choices.value| == |q.choices.value|
      && forall k :: 0 <= k < |q.choices.value| ==>
           r.choices.value[k] == Choice(q.choices.value[k].desc, Masked, map[])
  {
    match q.choices
    case Some(cs) =>
      if |cs| == 0 then q
      else q.(choices := Some(seq(|cs|, k requires 0 <= k < |cs| => MaskChoice(cs[k]))))
    case None => q
  }

  function Redact(exam: Exam): (r: Exam)
    ensures r.(questions := exam.questions) == exam
    ensures |r.questions| == |exam.questions|
    ensures forall k :: 0 <= k < |exam.questions| ==> r.questions[k] == RedactQuestion(exam.questions[k])
  {
    exam.(questions := seq(|exam.questions|, k requires 0 <= k < |exam.questions| => RedactQuestion(exam.questions[k])))
  }

  /** No choice in the exam carries its stored correctness flag. */
  predicate AnswersHidden(exam: Exam) {
    forall k, m ::
      (0 <= k < |exam.questions| && exam.questions[k].choices.Some? && 0 <= m < |exam.questions[k].choices.value|)
      ==> exam.questions[k].choices.value[m].isCorrect == Masked
  }

  lemma RedactHidesAnswers(exam: Exam)
    ensures AnswersHidden(Redact(exam))
  {
  }

  /** Redacting an already redacted exam changes nothing. */
  lemma RedactIdempotent(exam: Exam)
    ensures Redact(Redact(exam)) == exam.(questions := Redact(exam).questions)
    ensures Redact(Redact(exam)) == Redact(exam)
  {
    var once := Redact(exam);
    var twice := Redact(once);
    forall k | 0 <= k < |once.questions|
      ensures twice.questions[k] == once.questions[k]
    {
      var q := once.questions[k];
      if q.choices.Some? && |q.choices.value| > 0 {
        assert RedactQuestion(q).choices.value == q.choices.value;
      }
    }
    assert twice.questions == once.questions;
  }

  // ---------------------------------------------------------------- retrieve

  datatype Denial = NotStarted | NotAuthorized

  datatype RetrieveResponse =
    | Served(exam: Exam)
    | NotFound
    | Forbidden(reason: Denial)
    | RetrieveServerError

  /** `ExamViewSet.retrieve`. `found` is the result of looking the exam up by
      its code; `now` and `later` are the two clock readings the handler
      takes for the start and the expiry checks. A missing start date makes
      `start_date + duration` fail for anyone past the first two grants. */
  function Retrieve(found: Option<Exam>, user: User, now: Instant, later: Instant): (r: RetrieveResponse)
    ensures found.None? <==> r == NotFound
    ensures found.Some? && IsOwner(found.value, user) ==> r == Served(found.value)
    ensures found.Some? && InGroup(found.value, user) ==> r == Served(found.value)
    ensures r.Served? && r.exam != found.value ==> r.exam == Redact(found.value)
    ensures r.RetrieveServerError? <==>
      found.Some? && !IsOwner(found.value, user) && !InGroup(found.value, user) && found.value.startDate.None?
    ensures found.Some? && !IsOwner(found.value, user) && !InGroup(found.value, user) && found.value.startDate.Some? ==>
      var exam := found.value;
      var start := exam.startDate.value;
      && (!Whitelisted(exam, user) ==> r == Forbidden(NotAuthorized))
      && (Whitelisted(exam, user) && now < start ==> r == Forbidden(NotStarted))
      && (Whitelisted(exam, user) && start <= now && later > start + exam.duration ==> r == Forbidden(NotAuthorized))
      && (Whitelisted(exam, user) && start <= now && later <= start + exam.duration ==> r == Served(Redact(exam)))
  {
    match found
    case None => NotFound
    case Some(exam) =>
      if IsOwner(exam, user) then Served(exam)
      else if InGroup(exam, user) then Served(exam)
      else if exam.startDate.None? then RetrieveServerError
      else
        var start := exam.startDate.value;
        var expiration := start + exam.duration;
        match FirstMatch(exam.whitelist, user.email)
        case None => Forbidden(NotAuthorized)
        case Some(_) =>
          if now < start then Forbidden(NotStarted)
          else if later > expiration then Forbidden(NotAuthorized)
          else Served(Redact(exam))
  }

  /** Anyone served who is neither the owner nor a group member sees no
      answers. */
  lemma OnlyOwnerOrGroupSeeAnswers(found: Option<Exam>, user: User, now: Instant, later: Instant)
    requires Retrieve(found, user, now, later).Served?
    requires !IsOwner(found.value, user) && !InGroup(found.value, user)
    ensures AnswersHidden(Retrieve(found, user, now, later).exam)
  {
  }

  // ----------------------------------------------------- the duration endpoint

  datatype DurationResponse =
    | DurationOf(code: string, duration: int)
    | DurationNotFound
    | DurationForbidden

  /** `ExamDurationView.retrieve`: the same three grants, with no time window
      and no need for a start date. */
  function ExamDuration(found: Option<Exam>, user: User): (r: DurationResponse)
    ensures found.None? <==> r == DurationNotFound
    ensures r.DurationOf? ==> r == DurationOf(found.value.code, found.value.duration)
    ensures found.Some? ==>
      (r.DurationOf? <==> IsOwner(found.value, user) || InGroup(found.value, user) || Whitelisted(found.value, user))
  {
    match found
    case None => DurationNotFound
    case Some(exam) =>
      if IsOwner(exam, user) || InGroup(exam, user) || FirstMatch(exam.whitelist, user.email).Some? then
        DurationOf(exam.code, exam.duration)
      else DurationForbidden
  }

  /** Whoever may read an exam may read its duration; and a user refused the
      duration is refused the exam, unless the exam has no start date. */
  lemma RetrieveAgreesWithDuration(found: Option<Exam>, user: User, now: Instant, later: Instant)
    ensures Retrieve(found, user, now, later).Served? ==> ExamDuration(found, user).DurationOf?
    ensures ExamDuration(found, user).DurationForbidden? ==>
      Retrieve(found, user, now, later) in {Forbidden(NotAuthorized), RetrieveServerError}
    ensures
      (ExamDuration(found, user).DurationOf? && found.value.startDate.Some?
       && found.value.startDate.value <= now && later <= found.value.startDate.value + found.value.duration)
      ==> Retrieve(found, user, now, later).Served?
  {
  }

  /** The whitelist window is closed at both ends: a whitelisted user is let in
      at the start instant and at the expiry instant, and at no instant
      outside. */
  lemma WindowBoundaries(exam: Exam, user: User, start: Instant)
    requires !IsOwner(exam, user) && !InGroup(exam, user) && Whitelisted(exam, user)
    requires exam.startDate == Some(start) && exam.duration >= 0
    ensures Retrieve(Some(exam), user, start, start).Served?
    ensures Retrieve(Some(exam), user, start + exam.duration, start + exam.duration).Served?
    ensures Retrieve(Some(exam), user, start - 1, start - 1) == Forbidden(NotStarted)
    ensures Retrieve(Some(exam), user, start + exam.duration + 1, start + exam.duration + 1) == Forbidden(NotAuthorized)
  {
  }
}

=== FILE: exam_write.dfy ===
/** Writing exams: `ExamViewSet.create` with its subscription quota,
    `update` with its start guard and minute conversion, and the invitation
    emails `perform_create` queues for the whitelist. */
module ExamWrite {
  import opened Optional
  import opened Glob
  import opened Decimal
  import opened Basics
  import opened Subscriptions
  import opened ExamAccess

  /** A request field as it arrives: absent, a JSON string, a JSON integer,
      a JSON number with a fraction or exponent (a Python float) or a JSON
      boolean. */
  datatype RawValue =
    | Missing
    | Text(text: string)
    | Whole(number: int)
    | Fraction(value: real)
    | Flag(truth: bool)

  const SecondsPerMinute := 60
  const MinutesPerDay := 1440

  /** Python's `timedelta` holds at most 999999999 days either way. */
  const MaxTimedeltaDays := 999999999

  /** `timedelta(minutes=m)` for an integer `m` normalises to whole days (rounding
      down) and raises OverflowError when their magnitude exceeds the maximum. */
  predicate TimedeltaFits(minutes: int) {
    -MaxTimedeltaDays <= minutes / MinutesPerDay <= MaxTimedeltaDays
  }

  /** The minute counts `timedelta` accepts form one contiguous range. */
  lemma TimedeltaRange(minutes: int)
    ensures TimedeltaFits(minutes) <==>
      -MaxTimedeltaDays * MinutesPerDay <= minutes < (MaxTimedeltaDays + 1) * MinutesPerDay
  {
  }

  // -------------------------------------------------------------- invitations

  /** The one invitation the email task receives per literal whitelist entry. */
  datatype Invitation = Invitation(email: string, examTitle: string, examCode: string, startDate: Option<Instant>)

  /** The entries of a whitelist that `send_emails_to_whitelist` emails, in
      whitelist order, when it skips the entries `skipped` picks out. */
  function Emailed(whitelist: seq<string>, skipped: string -> bool): (r: seq<string>)
    ensures forall k :: 0 <= k < |r| ==> !skipped(r[k]) && r[k] in whitelist
    ensures forall e :: !skipped(e) ==> multiset(r)[e] == multiset(whitelist)[e]
    ensures forall e :: skipped(e) ==> e !in r
    decreases |whitelist|
  {
    if |whitelist| == 0 then []
    else
      var init := whitelist[..|whitelist| - 1];
      var last := whitelist[|whitelist| - 1];
      assert whitelist == init + [last];
      if skipped(last) then Emailed(init, skipped) else Emailed(init, skipped) + [last]
  }

  /** Emailing splits over a concatenated whitelist, which fixes the order:
      earlier entries are emailed first. */
  lemma {:induction false} EmailedAppend(a: seq<string>, b: seq<string>, skipped: string -> bool)
    ensures Emailed(a + b, skipped) == Emailed(a, skipped) + Emailed(b, skipped)
    decreases |b|
  {
    if |b| > 0 {
      var b' := b[..|b| - 1];
      assert a + b == (a + b') + [b[|b| - 1]];
      assert (a + b)[..|a + b| - 1] == a + b';
      EmailedAppend(a, b', skipped);
    } else {
      assert a + b == a;
    }
  }

  /** The sender as written: it skips only entries containing `*` or `?`. */
  function InvitedEmailsAsWritten(whitelist: seq<string>): (r: seq<string>)
    ensures forall k :: 0 <= k < |r| ==> !HasWildcard(r[k]) && r[k] in whitelist
    ensures forall e :: !HasWildcard(e) ==> multiset(r)[e] == multiset(whitelist)[e]
  {
    Emailed(whitelist, HasWildcard)
  }

  /** As written, an entry such as `[ab]@x.com` is emailed, yet `fnmatch`
      reads `[ab]` as a class, so the invited user is refused the exam. */
  lemma BracketInviteeRefused(exam: Exam, user: User)
    requires exam.whitelist == ["[ab]@x.com"] && user.email == "[ab]@x.com"
    ensures user.email in InvitedEmailsAsWritten(exam.whitelist)
    ensures !Whitelisted(exam, user)
  {
    BracketEntryMissesItself();
  }

  lemma BracketEntryMissesItself()
    ensures !Matches("[ab]@x.com", "[ab]@x.com")
  {
    SetClassMatches('[', "ab", "ab]@x.com", "@x.com");
  }

  /** The sender as intended: entries `fnmatch` would read as a pattern (any
      `*`, `?` or `[`) are skipped, so every invitation names a literal
      whitelist entry. */
  function InvitedEmails(whitelist: seq<string>): (r: seq<string>)
    ensures forall k :: 0 <= k < |r| ==> !HasMagic(r[k]) && r[k] in whitelist
    ensures forall e :: !HasMagic(e) ==> multiset(r)[e] == multiset(whitelist)[e]
  {
    Emailed(whitelist, HasMagic)
  }

  function Invitations(exam: Exam): (r: seq<Invitation>)
    ensures |r| == |InvitedEmails(exam.whitelist)|
    ensures forall k :: 0 <= k < |r| ==>
      r[k] == Invitation(InvitedEmails(exam.whitelist)[k], exam.title, exam.code, exam.startDate)
  {
    var emails := InvitedEmails(exam.whitelist);
    seq(|emails|, k requires 0 <= k < |emails| => Invitation(emails[k], exam.title, exam.code, exam.startDate))
  }

  /** A user invited by email passes the whitelist grant: the entry that
      produced the invitation has no `*`, `?` or `[`, so it matches exactly
      that email. */
  lemma InviteeIsWhitelisted(exam: Exam, user: User)
    requires user.email in InvitedEmails(exam.whitelist)
    ensures Whitelisted(exam, user)
  {
    var k :| 0 <= k < |exam.whitelist| && exam.whitelist[k] == user.email;
    LiteralMatchesOnlyItself(user.email, exam.whitelist[k]);
  }

  // ------------------------------------------------------------------- create

  /** Python's `int()` of a request value: a missing key or unparsable text
      raises, which is None here; a float is truncated toward zero and a
      boolean counts as 1 or 0. */
  function IntOf(raw: RawValue): (r: Option<int>)
    ensures raw.Missing? ==> r.None?
    ensures raw.Whole? ==> r == Some(raw.number)
    ensures raw.Text? && IsNumeric(raw.text) ==> r == Some(Value(raw.text))
    ensures raw.Text? ==> r == ParseInt(raw.text)
    ensures raw.Fraction? ==> r == Some(TruncateTowardZero(raw.value))
    ensures raw.Flag? ==> r == Some(if raw.truth then 1 else 0)
  {
    match raw
    case Missing => None
    case Whole(n) => Some(n)
    case Text(s) => ParseInt(s)
    case Fraction(x) => Some(TruncateTowardZero(x))
    case Flag(b) => Some(if b then 1 else 0)
  }

  /** `Exam.objects.filter(user_id=user).count()`. */
  function CountOwned(exams: seq<Exam>, user: UserId): (n: nat)
    ensures n <= |exams|
    ensures n == 0 <==> forall k :: 0 <= k < |exams| ==> exams[k].owner != user
    decreases |exams|
  {
    if |exams| == 0 then 0
    else CountOwned(exams[1..], user) + (if exams[0].owner == user then 1 else 0)
  }

  lemma {:induction false} CountOwnedAppend(exams: seq<Exam>, e: Exam, user: UserId)
    ensures CountOwned(exams + [e], user) == CountOwned(exams, user) + (if e.owner == user then 1 else 0)
    decreases |exams|
  {
    if |exams| > 0 {
      assert (exams + [e])[1..] == exams[1..] + [e];
      CountOwnedAppend(exams[1..], e, user);
    }
  }

  datatype CreateDenial = NotSubscribed | LimitReached

  datatype CreateResponse =
    | Created(exam: Exam, exams: seq<Exam>, subs: seq<Subscription>, invitations: seq<Invitation>)
    | CreateBadRequest
    | CreateDenied(reason: CreateDenial)
    | CreateServerError

  /** `int(request.data['duration'])` succeeds and the minutes fit a
      `timedelta`; otherwise the handler raises before any lookup. */
  predicate DurationAccepted(raw: RawValue) {
    IntOf(raw).Some? && TimedeltaFits(IntOf(raw).value)
  }

  /** The quota rule: a plan limit of 0 is unlimited, any other limit caps the
      number of exams the user owns. */
  predicate UnderQuota(plan: Plan, owned: nat) {
    plan.examLimit == 0 || owned < plan.examLimit
  }

  /** `ExamViewSet.create`. `draft` is the exam the serializer would save and
      `valid` whether it accepts the request (201 rather than 400). On 201 the
      exam is stored with the requester as owner, the subscription's
      `exams_created` becomes the previous count plus one and the whitelist
      is invited. */
  function Create(raw: RawValue, draft: Exam, valid: bool, user: User, exams: seq<Exam>, subs: seq<Subscription>): (r: CreateResponse)
    ensures !DurationAccepted(raw) ==> r == CreateServerError
    ensures DurationAccepted(raw) && ActiveLookup(subs, user.id).NoneActive? ==> r == CreateDenied(NotSubscribed)
    ensures DurationAccepted(raw) && ActiveLookup(subs, user.id).Several? ==> r == CreateServerError
    ensures DurationAccepted(raw) && ActiveLookup(subs, user.id).Unique? ==>
      var plan := subs[ActiveLookup(subs, user.id).index].plan;
      && (!UnderQuota(plan, CountOwned(exams, user.id)) <==> r == CreateDenied(LimitReached))
      && (UnderQuota(plan, CountOwned(exams, user.id)) && !valid ==> r == CreateBadRequest)
      && (UnderQuota(plan, CountOwned(exams, user.id)) && valid <==> r.Created?)
    ensures r.Created? ==> DurationAccepted(raw) && ActiveLookup(subs, user.id).Unique?
    ensures r.Created? ==>
      var i := ActiveLookup(subs, user.id).index;
      && r.exam == draft.(owner := user.id, duration := IntOf(raw).value * SecondsPerMinute)
      && r.exams == exams + [r.exam]
      && |r.subs| == |subs|
      && r.subs[i] == subs[i].(examsCreated := CountOwned(exams, user.id) + 1)
      && (forall j :: 0 <= j < |subs| && j != i ==> r.subs[j] == subs[j])
      && r.invitations == Invitations(r.exam)
  {
    match IntOf(raw)
    case None => CreateServerError
    case Some(minutes) =>
      if !TimedeltaFits(minutes) then CreateServerError
      else
        match ActiveLookup(subs, user.id)
        case NoneActive => CreateDenied(NotSubscribed)
        case Several => CreateServerError
        case Unique(i) =>
          var owned := CountOwned(exams, user.id);
          if subs[i].plan.examLimit != 0 && owned >= subs[i].plan.examLimit then CreateDenied(LimitReached)
          else if !valid then CreateBadRequest
          else
            var exam := draft.(owner := user.id, duration := minutes * SecondsPerMinute);
            Created(exam, exams + [exam], subs[i := subs[i].(examsCreated := owned + 1)], Invitations(exam))
  }

  /** After a creation the subscription's counter equals the number of exams
      the user owns, and a limited plan is never exceeded. */
  lemma CreateKeepsCountAndQuota(raw: RawValue, draft: Exam, valid: bool, user: User, exams: seq<Exam>, subs: seq<Subscription>)
    requires Create(raw, draft, valid, user, exams, subs).Created?
    ensures
      var r := Create(raw, draft, valid, user, exams, subs);
      var s := r.subs[ActiveLookup(subs, user.id).index];
      && s.examsCreated == CountOwned(r.exams, user.id)
      && (s.plan.examLimit != 0 ==> s.examsCreated <= s.plan.examLimit)
  {
    var r := Create(raw, draft, valid, user, exams, subs);
    CountOwnedAppend(exams, r.exam, user.id);
  }

  // ------------------------------------------------------------------- update

  /** The duration the update passes on to the serializer: converted from
      minutes to seconds, or the value as sent. */
  datatype PayloadDuration = Converted(seconds: int) | AsSent(raw: RawValue)

  datatype UpdateResponse = UpdateNotFound | AlreadyStarted | Proceed(duration: PayloadDuration) | UpdateServerError

  /** `request.data.get('duration')` is truthy and `str(...)` is numeric.
      Python spells every float with a `.`, an exponent, `inf` or `nan`, and
      the booleans as `True` and `False`, so neither is ever numeric. */
  predicate ConvertibleDuration(raw: RawValue) {
    match raw
    case Missing => false
    case Text(s) => s != "" && IsNumeric(s)
    case Whole(n) => n != 0 && IsNumeric(IntToString(n))
    case Fraction(_) => false
    case Flag(_) => false
  }

  /** An integer duration is converted exactly when it is positive. */
  lemma ConvertibleWhole(n: int)
    ensures ConvertibleDuration(Whole(n)) <==> n > 0
  {
    StringOfIntIsNumeric(n);
  }

  /** `ExamViewSet.update`: an exam whose start date is before now cannot be
      changed; the duration is converted only when it is numeric. */
  function Update(found: Option<Exam>, now: Instant, raw: RawValue): (r: UpdateResponse)
    ensures found.None? <==> r == UpdateNotFound
    ensures found.Some? ==>
      (r == AlreadyStarted <==> found.value.startDate.Some? && found.value.startDate.value < now)
    ensures r.Proceed? && raw.Whole? ==>
      (if raw.number > 0 then r.duration == Converted(raw.number * SecondsPerMinute) else r.duration == AsSent(raw))
    ensures r.Proceed? && raw.Text? ==>
      (if IsNumeric(raw.text) then r.duration == Converted(Value(raw.text) * SecondsPerMinute) else r.duration == AsSent(raw))
    ensures r.Proceed? && (raw.Missing? || raw.Fraction? || raw.Flag?) ==> r.duration == AsSent(raw)
    ensures r.Proceed? && r.duration.Converted? ==> IntOf(raw).Some? && r.duration.seconds == IntOf(raw).value * SecondsPerMinute
    ensures r == UpdateServerError <==>
      found.Some? && r != AlreadyStarted && ConvertibleDuration(raw) && !DurationAccepted(raw)
  {
    match found
    case None => UpdateNotFound
    case Some(exam) =>
      if exam.startDate.Some? && exam.startDate.value < now then AlreadyStarted
      else
        ConvertibleWhole(if raw.Whole? then raw.number else 0);
        if !ConvertibleDuration(raw) then Proceed(AsSent(raw))
        else if TimedeltaFits(IntOf(raw).value) then Proceed(Converted(IntOf(raw).value * SecondsPerMinute))
        else UpdateServerError
  }
}

=== FILE: glob.dfy ===
/** A model of Python's `fnmatch.fnmatch` on POSIX, where `os.path.normcase`
    leaves names alone: `*` matches any run of characters (possibly empty),
    `?` exactly one character, `[...]` one character of a class, and every
    other character only itself. A `[` with no closing `]` is an ordinary
    character. */
module Glob {
  import opened Optional

  /** The test the invitation sender applies to a whitelist entry. */
  predicate HasWildcard(p: string) {
    '*' in p || '?' in p
  }

  /** The characters `fnmatch` gives a meaning to. */
  predicate HasMagic(p: string) {
    HasWildcard(p) || '[' in p
  }

  /** In the text after a `[`, where the search for the closing `]` starts:
      past a leading `!`, and then past a leading `]`, which belongs to the
      class. */
  function BodyStart(rest: string): (r: nat)
    ensures r <= |rest|
  {
    var bang := if |rest| > 0 && rest[0] == '!' then 1 else 0;
    if bang < |rest| && rest[bang] == ']' then bang + 1 else bang
  }

  /** The first `]` at or after position `j`. */
  function CloseFrom(rest: string, j: nat): (r: Option<nat>)
    ensures r.Some? ==> j <= r.value < |rest| && rest[r.value] == ']'
    ensures r.Some? ==> forall k :: j <= k < r.value ==> rest[k] != ']'
    ensures r.None? ==> forall k :: j <= k < |rest| ==> rest[k] != ']'
    decreases |rest| - j
  {
    if j >= |rest| then None
    else if rest[j] == ']' then Some(j)
    else CloseFrom(rest, j + 1)
  }

  /** The position of the `]` that closes a class, in the text after `[`. The
      class body before it is never empty, even after a leading `!`. */
  function ClassClose(rest: string): (r: Option<nat>)
    ensures r.Some? ==> BodyStart(rest) <= r.value < |rest| && rest[r.value] == ']'
    ensures r.Some? ==> r.value > (if rest[0] == '!' then 1 else 0)
    ensures r.Some? ==> forall k :: BodyStart(rest) <= k < r.value ==> rest[k] != ']'
    ensures r.None? ==> forall k :: BodyStart(rest) <= k < |rest| ==> rest[k] != ']'
  {
    CloseFrom(rest, BodyStart(rest))
  }

  /** Membership in the items of a class body, read as a regular-expression
      class: `x-y` is the range from `x` to `y`, any other character stands
      for itself. */
  predicate InItems(c: char, body: string)
    decreases |body|
  {
    if |body| == 0 then false
    else if |body| >= 3 && body[1] == '-' then (body[0] <= c <= body[2]) || InItems(c, body[3..])
    else c == body[0] || InItems(c, body[1..])
  }

  /** A class body starting with `!` is negated. */
  predicate InClass(c: char, body: string) {
    if |body| > 0 && body[0] == '!' then !InItems(c, body[1..]) else InItems(c, body)
  }

  predicate Matches(s: string, p: string)
    decreases |p| + |s|
  {
    if |p| == 0 then |s| == 0
    else if p[0] == '*' then Matches(s, p[1..]) || (|s| > 0 && Matches(s[1..], p))
    else if p[0] == '?' then |s| > 0 && Matches(s[1..], p[1..])
    else if p[0] == '[' && ClassClose(p[1..]).Some? then
      var j := ClassClose(p[1..]).value;
      |s| > 0 && InClass(s[0], p[1..j + 1]) && Matches(s[1..], p[j + 2..])
    else |s| > 0 && s[0] == p[0] && Matches(s[1..], p[1..])
  }

  /** A pattern without `*`, `?` or `[` matches exactly the string it spells. */
  lemma {:induction false} LiteralMatchesOnlyItself(s: string, p: string)
    requires !HasMagic(p)
    ensures Matches(s, p) <==> s == p
    decreases |p|
  {
    if |p| > 0 {
      assert p[0] != '*' && p[0] != '?' && p[0] != '[';
      assert !HasMagic(p[1..]) by {
        assert forall c :: c in p[1..] ==> c in p;
      }
      if |s| > 0 {
        LiteralMatchesOnlyItself(s[1..], p[1..]);
        assert s == [s[0]] + s[1..];
        assert p == [p[0]] + p[1..];
      }
    }
  }

  /** A lone `*` matches every string. */
  lemma {:induction false} StarMatchesEverything(s: string)
    ensures Matches(s, "*")
    decreases |s|
  {
    if |s| > 0 {
      StarMatchesEverything(s[1..]);
    }
  }

  /** A pattern made only of `?` matches exactly the strings of its length. */
  lemma {:induction false} QuestionMarksMatchLength(s: string, p: string)
    requires forall k :: 0 <= k < |p| ==> p[k] == '?'
    ensures Matches(s, p) <==> |s| == |p|
    decreases |p|
  {
    if |p| > 0 && |s| > 0 {
      QuestionMarksMatchLength(s[1..], p[1..]);
    }
  }

  /** Without ranges, class items are exactly the characters listed. */
  lemma {:induction false} PlainItems(c: char, body: string)
    requires '-' !in body
    ensures InItems(c, body) <==> c in body
    decreases |body|
  {
    if |body| > 0 {
      assert '-' !in body[1..] by {
        assert forall x :: x in body[1..] ==> x in body;
      }
      PlainItems(c, body[1..]);
      assert body == [body[0]] + body[1..];
    }
  }

  /** A class listing plain characters matches one character exactly when it
      is listed, and the rest of the pattern then matches the rest. */
  lemma SetClassMatches(c: char, body: string, s: string, tail: string)
    requires |body| > 0 && body[0] != '!' && ']' !in body && '-' !in body
    ensures Matches([c] + s, "[" + body + "]" + tail) <==> c in body && Matches(s, tail)
  {
    var p := "[" + body + "]" + tail;
    var rest := p[1..];
    assert rest == body + "]" + tail;
    assert BodyStart(rest) == 0;
    assert rest[|body|] == ']';
    assert forall k :: 0 <= k < |body| ==> rest[k] == body[k] && rest[k] != ']';
    var j := ClassClose(rest).value;
    assert j == |body|;
    assert p[1..j + 1] == body;
    assert p[j + 2..] == tail;
    assert ([c] + s)[1..] == s;
    PlainItems(c, body);
  }
}

=== FILE: lists.dfy ===
/** Sequence operations shared by the form handlers. */
module Lists {

  /** Deletes the element at index `i`, keeping the others in order
      (react-hook-form's `remove(index)` on a field array). */
  function RemoveAt<T>(xs: seq<T>, i: nat): (r: seq<T>)
    requires i < |xs|
    ensures |r| == |xs| - 1
    ensures forall k :: 0 <= k < i ==> r[k] == xs[k]
    ensures forall k :: i <= k < |r| ==> r[k] == xs[k + 1]
    ensures multiset(r) + multiset{xs[i]} == multiset(xs)
  {
    assert xs == xs[..i] + [xs[i]] + xs[i + 1..];
    xs[..i] + xs[i + 1..]
  }

  /** Removing what was just appended gives back the original list. */
  lemma RemoveAfterAppend<T>(xs: seq<T>, x: T)
    ensures RemoveAt(xs + [x], |xs|) == xs
  {
  }

  lemma HeadTail<T>(s: seq<T>)
    requires |s| > 0
    ensures s == [s[0]] + s[1..]
  {
  }

  lemma ConsAppend<T>(a: seq<T>, b: seq<T>)
    requires |a| > 0
    ensures a + b == [a[0]] + (a[1..] + b)
  {
  }

  lemma AppendAssoc<T>(a: seq<T>, b: seq<T>, c: seq<T>)
    ensures a + (b + c) == (a + b) + c
  {
  }
}

=== FILE: mcq_choices.dfy ===
/** The MCQ choice list of the exam form: the effect that pads it to two
    entries, and the Add Choice and Remove Choice buttons. The padding
    effect writes a `correct` key while Add Choice writes `isCorrect`; each
    key is an optional field here, so the two kinds of entry stay distinct.
    The list is bound to the form's root `choices` path. */
module McqChoices {
  import opened Optional
  import Lists

  datatype FormChoice = FormChoice(desc: string, correct: Option<bool>, isCorrect: Option<bool>)

  /** What the padding effect appends: `{ desc: "", correct: false }`. */
  const PadEntry := FormChoice("", Some(false), None)

  /** What Add Choice appends: `{ desc: "", isCorrect: false }`. */
  const NewEntry := FormChoice("", None, Some(false))

  const MinChoices := 2

  /** The list the padding effect leaves, stated independently of its loop:
      the existing choices followed by enough pad entries to reach two. */
  function Padded(choices: seq<FormChoice>): seq<FormChoice> {
    choices + seq(if |choices| < MinChoices then MinChoices - |choices| else 0, _ => PadEntry)
  }

  /** The padding effect: `for (i = fields.length; i < 2; i++) append(...)`. */
  method PadChoices(choices: seq<FormChoice>) returns (r: seq<FormChoice>)
    ensures |r| >= MinChoices
    ensures |choices| >= MinChoices ==> r == choices
    ensures |choices| < MinChoices ==> |r| == MinChoices
    ensures r[..|choices|] == choices
    ensures forall k :: |choices| <= k < |r| ==> r[k] == PadEntry
    ensures r == Padded(choices)
  {
    r := choices;
    var i := |choices|;
    while i < MinChoices
      invariant |r| == (if i > |choices| then i else |choices|)
      invariant i <= MinChoices || i == |choices|
      invariant r[..|choices|] == choices
      invariant forall k :: |choices| <= k < |r| ==> r[k] == PadEntry
    {
      r := r + [PadEntry];
      i := i + 1;
    }
  }

  /** Padding a second time changes nothing. */
  lemma PaddedIdempotent(choices: seq<FormChoice>)
    ensures Padded(Padded(choices)) == Padded(choices)
  {
  }

  /** Add Choice: exactly one fresh entry at the end. */
  function AddChoice(choices: seq<FormChoice>): (r: seq<FormChoice>)
    ensures |r| == |choices| + 1
    ensures r[..|choices|] == choices && r[|choices|] == NewEntry
  {
    choices + [NewEntry]
  }

  /** Remove Choice: exactly the entry at `index` goes; the rest keep their order. */
  function RemoveChoice(choices: seq<FormChoice>, index: nat): (r: seq<FormChoice>)
    requires index < |choices|
    ensures |r| == |choices| - 1
    ensures forall k :: 0 <= k < index ==> r[k] == choices[k]
    ensures forall k :: index <= k < |r| ==> r[k] == choices[k + 1]
    ensures multiset(r) + multiset{choices[index]} == multiset(choices)
  {
    Lists.RemoveAt(choices, index)
  }

  /** Removing the choice just added restores the list. */
  lemma RemoveUndoesAdd(choices: seq<FormChoice>)
    ensures RemoveChoice(AddChoice(choices), |choices|) == choices
  {
  }
}

=== FILE: optional.dfy ===
/** A value that may be absent: Python's `None` and JavaScript's `undefined`
    are `None` here. */
module Optional {
  datatype Option<T> = None | Some(value: T)

  /** The value when present, otherwise `fallback`. */
  function ValueOr<T>(o: Option<T>, fallback: T): T {
    if o.Some? then o.value else fallback
  }
}

=== FILE: question_form.dfy ===
/** The question list of the exam form (`QuestionsStep`): the effect that
    seeds an empty list, Reset, Add Question, Remove, the question-bank
    selection and the tag input's blur handler, each as a transform of the
    list of questions. */
module QuestionForm {
  import opened Optional
  import opened McqChoices
  import Lists
  import Tags

  /** The tags field holds the raw text while it is edited, a list once the
      blur handler has run, or anything else the form was loaded with. */
  datatype TagsField = TagText(text: string) | TagList(items: seq<string>) | TagOther

  /** `id` is None when the record has no id at all; a falsy id is the empty
      string, which Reset and `Default` use just as they use a missing one. */
  datatype Question = Question(
    id: Option<string>,
    desc: string,
    kind: string,
    grade: string,
    choices: seq<FormChoice>,
    testCases: seq<string>,
    code: seq<string>,
    tags: TagsField,
    difficulty: string)

  /** The record Add Question appends, carrying the given id. */
  function Blank(id: string): Question {
    Question(Some(id), "", "mcq", "", [], [], [], TagList([]), "easy")
  }

  const Default := Blank("")

  /** The mount effect: an empty list receives one default question; a
      non-empty list is left alone. */
  function SeedQuestions(qs: seq<Question>): (r: seq<Question>)
    ensures |qs| == 0 ==> r == [Default]
    ensures |qs| > 0 ==> r == qs
    ensures |r| >= 1
  {
    if |qs| == 0 then [Default] else qs
  }

  /** Add Question: one default question at the end. */
  function AppendQuestion(qs: seq<Question>): (r: seq<Question>)
    ensures |r| == |qs| + 1
    ensures r[..|qs|] == qs && r[|qs|] == Default
  {
    qs + [Default]
  }

  /** Reset: question `index` becomes the default question with its own id
      (or `""` when it has none); the others are untouched. */
  function ResetQuestion(qs: seq<Question>, index: nat): (r: seq<Question>)
    requires index < |qs|
    ensures |r| == |qs|
    ensures r[index] == Blank(ValueOr(qs[index].id, ""))
    ensures forall k :: 0 <= k < |qs| && k != index ==> r[k] == qs[k]
  {
    qs[index := Blank(match qs[index].id case Some(id) => id case None => "")]
  }

  /** Resetting twice is the same as resetting once. */
  lemma ResetIdempotent(qs: seq<Question>, index: nat)
    requires index < |qs|
    ensures ResetQuestion(ResetQuestion(qs, index), index) == ResetQuestion(qs, index)
  {
  }

  /** Remove: ignored while only one question is left, otherwise deletes the
      question at `index`. */
  function RemoveQuestion(qs: seq<Question>, index: nat): (r: seq<Question>)
    requires index < |qs|
    ensures |qs| == 1 ==> r == qs
    ensures |qs| > 1 ==> |r| == |qs| - 1 && r == qs[..index] + qs[index + 1..]
    ensures |r| >= 1
  {
    if |qs| > 1 then Lists.RemoveAt(qs, index) else qs
  }

  /** No sequence of Remove clicks empties a list that starts non-empty. */
  lemma {:induction false} RemovalsKeepOneQuestion(qs: seq<Question>, clicks: seq<nat>)
    requires |qs| >= 1
    ensures |RemoveAll(qs, clicks)| >= 1
    ensures |RemoveAll(qs, clicks)| >= |qs| - |clicks|
    decreases |clicks|
  {
    if |clicks| > 0 && clicks[0] < |qs| {
      RemovalsKeepOneQuestion(RemoveQuestion(qs, clicks[0]), clicks[1..]);
    } else if |clicks| > 0 {
      RemovalsKeepOneQuestion(qs, clicks[1..]);
    }
  }

  /** Applies a series of Remove clicks; a click on an index past the end is
      not possible in the form and is ignored. */
  function RemoveAll(qs: seq<Question>, clicks: seq<nat>): seq<Question>
    decreases |clicks|
  {
    if |clicks| == 0 then qs
    else if clicks[0] < |qs| then RemoveAll(RemoveQuestion(qs, clicks[0]), clicks[1..])
    else RemoveAll(qs, clicks[1..])
  }

  /** A question picked from the bank; its list fields may be missing. */
  datatype BankQuestion = BankQuestion(
    id: Option<string>,
    desc: string,
    kind: string,
    grade: string,
    choices: Option<seq<FormChoice>>,
    testCases: Option<seq<string>>,
    code: Option<seq<string>>,
    tags: TagsField,
    difficulty: string)

  /** Question-bank selection: the picked question is appended with its
      fields copied, and missing lists become empty ones. */
  function SelectFromBank(qs: seq<Question>, picked: BankQuestion): (r: seq<Question>)
    ensures |r| == |qs| + 1 && r[..|qs|] == qs
    ensures var q := r[|qs|];
      && q.id == picked.id && q.desc == picked.desc && q.kind == picked.kind
      && q.grade == picked.grade && q.tags == picked.tags && q.difficulty == picked.difficulty
      && q.choices == (if picked.choices.Some? then picked.choices.value else [])
      && q.testCases == (if picked.testCases.Some? then picked.testCases.value else [])
      && q.code == (if picked.code.Some? then picked.code.value else [])
  {
    qs + [Question(picked.id, picked.desc, picked.kind, picked.grade,
                   ValueOr(picked.choices, []), ValueOr(picked.testCases, []), ValueOr(picked.code, []),
                   picked.tags, picked.difficulty)]
  }

  /** The tags the blur handler stores: parsed text, a list as it was, or
      nothing for any other value. */
  function BlurredTags(field: TagsField): (r: seq<string>)
    ensures field.TagList? ==> r == field.items
    ensures field.TagOther? ==> r == []
    ensures field.TagText? ==> forall k :: 0 <= k < |r| ==> Tags.CleanTag(r[k])
  {
    match field
    case TagText(s) => Tags.ParseTags(s)
    case TagList(items) => items
    case TagOther => []
  }

  /** `handleTagInputBlur(index)`: only question `index`'s tags change. */
  function BlurTags(qs: seq<Question>, index: nat): (r: seq<Question>)
    requires index < |qs|
    ensures |r| == |qs|
    ensures r[index] == qs[index].(tags := TagList(BlurredTags(qs[index].tags)))
    ensures forall k :: 0 <= k < |qs| && k != index ==> r[k] == qs[k]
  {
    qs[index := qs[index].(tags := TagList(BlurredTags(qs[index].tags)))]
  }

  /** Leaving the tag input twice is the same as leaving it once. */
  lemma BlurTagsIdempotent(qs: seq<Question>, index: nat)
    requires index < |qs|
    ensures BlurTags(BlurTags(qs, index), index) == BlurTags(qs, index)
  {
  }

  /** Removing the question just added restores the list. */
  lemma RemoveUndoesAppend(qs: seq<Question>)
    requires |qs| >= 1
    ensures RemoveQuestion(AppendQuestion(qs), |qs|) == qs
  {
  }

  /** Once seeded, the list stays non-empty under every handler. */
  lemma HandlersKeepListNonEmpty(qs: seq<Question>, index: nat, picked: BankQuestion)
    requires |qs| >= 1 && index < |qs|
    ensures |SeedQuestions(qs)| >= 1
    ensures |AppendQuestion(qs)| >= 1 && |SelectFromBank(qs, picked)| >= 1
    ensures |ResetQuestion(qs, index)| >= 1 && |BlurTags(qs, index)| >= 1
    ensures |RemoveQuestion(qs, index)| >= 1
  {
  }

  /** The bank form of a question: every list present. */
  function AsBankQuestion(q: Question): BankQuestion {
    BankQuestion(q.id, q.desc, q.kind, q.grade, Some(q.choices), Some(q.testCases), Some(q.code), q.tags, q.difficulty)
  }

  /** Selecting a question whose lists are all present appends it unchanged. */
  lemma SelectCompleteQuestion(qs: seq<Question>, q: Question)
    ensures SelectFromBank(qs, AsBankQuestion(q)) == qs + [q]
  {
  }
}

=== FILE: ranking.dfy ===
/** The results page of an exam (`ExamAllStudent`): the fetched attempts are
    normalised to a list and ranked by score, highest first, with a stable
    sort as `Array.prototype.sort` is. */
module Ranking {
  import Lists

  /** An attempt with its score as an integer. */
  datatype Attempt = Attempt(student: string, score: int)

  /** What the fetch hook holds: nothing yet, a single object, or an array. */
  datatype Fetched = NoData | Single(attempt: Attempt) | Many(attempts: seq<Attempt>)

  /** `if (!data) return []; if (!Array.isArray(data)) data = [data];` */
  function Normalise(data: Fetched): (r: seq<Attempt>)
    ensures data.NoData? ==> r == []
    ensures data.Single? ==> r == [data.attempt]
    ensures data.Many? ==> r == data.attempts
  {
    match data
    case NoData => []
    case Single(a) => [a]
    case Many(xs) => xs
  }

  /** Highest score first. */
  predicate ByScoreDescending(xs: seq<Attempt>) {
    forall i, j :: 0 <= i < j < |xs| ==> xs[i].score >= xs[j].score
  }

  /** Places `a` before the first attempt that does not outscore it, so it
      lands after every attempt with a strictly higher score. */
  function Insert(a: Attempt, sorted: seq<Attempt>): (r: seq<Attempt>)
    requires ByScoreDescending(sorted)
    ensures ByScoreDescending(r)
    ensures multiset(r) == multiset(sorted) + multiset{a}
    ensures |r| == |sorted| + 1
    ensures r[0] == a || (|sorted| > 0 && r[0] == sorted[0])
    decreases |sorted|
  {
    if |sorted| == 0 || a.score >= sorted[0].score then [a] + sorted
    else
      var tail := sorted[1..];
      var rest := Insert(a, tail);
      assert sorted == [sorted[0]] + tail;
      assert rest[0].score <= sorted[0].score;
      [sorted[0]] + rest
  }

  /** `[...data].sort((a, b) => b.score - a.score)` as an insertion sort. */
  function SortByScore(xs: seq<Attempt>): (r: seq<Attempt>)
    ensures ByScoreDescending(r)
    ensures multiset(r) == multiset(xs)
    ensures |r| == |xs|
    decreases |xs|
  {
    if |xs| == 0 then []
    else
      assert xs == [xs[0]] + xs[1..];
      Insert(xs[0], SortByScore(xs[1..]))
  }

  /** The ranked list the page shows. */
  function Rank(data: Fetched): (r: seq<Attempt>)
    ensures ByScoreDescending(r)
    ensures multiset(r) == multiset(Normalise(data))
    ensures |r| == |Normalise(data)|
  {
    SortByScore(Normalise(data))
  }

  // ---------------------------------------------------------------- stability

  /** The attempts with score `s`, in order. */
  function WithScore(xs: seq<Attempt>, s: int): seq<Attempt>
    decreases |xs|
  {
    if |xs| == 0 then []
    else (if xs[0].score == s then [xs[0]] else []) + WithScore(xs[1..], s)
  }

  lemma WithScoreCons(x: Attempt, xs: seq<Attempt>, s: int)
    ensures WithScore([x] + xs, s) == (if x.score == s then [x] else []) + WithScore(xs, s)
  {
  }

  lemma {:induction false} WithScoreInsert(a: Attempt, sorted: seq<Attempt>, s: int)
    requires ByScoreDescending(sorted)
    ensures WithScore(Insert(a, sorted), s) == (if a.score == s then [a] else []) + WithScore(sorted, s)
    decreases |sorted|
  {
    if |sorted| == 0 || a.score >= sorted[0].score {
      assert Insert(a, sorted) == [a] + sorted;
      WithScoreCons(a, sorted, s);
    } else {
      var head, tail := sorted[0], sorted[1..];
      var rest := Insert(a, tail);
      var pick := if a.score == s then [a] else [];
      var headPick := if head.score == s then [head] else [];
      assert Insert(a, sorted) == [head] + rest;
      Lists.HeadTail(sorted);
      WithScoreCons(head, rest, s);
      WithScoreCons(head, tail, s);
      WithScoreInsert(a, tail, s);
      assert pick == [] || headPick == [];
      Lists.AppendAssoc(headPick, pick, WithScore(tail, s));
      Lists.AppendAssoc(pick, headPick, WithScore(tail, s));
    }
  }

  /** Attempts with equal scores keep their fetched order. */
  lemma {:induction false} SortIsStable(xs: seq<Attempt>, s: int)
    ensures WithScore(SortByScore(xs), s) == WithScore(xs, s)
    decreases |xs|
  {
    if |xs| > 0 {
      SortIsStable(xs[1..], s);
      WithScoreInsert(xs[0], SortByScore(xs[1..]), s);
    }
  }

  /** An already ranked list is left as it is. */
  lemma {:induction false} SortKeepsRanked(xs: seq<Attempt>)
    requires ByScoreDescending(xs)
    ensures SortByScore(xs) == xs
    decreases |xs|
  {
    if |xs| > 0 {
      SortKeepsRanked(xs[1..]);
      assert xs == [xs[0]] + xs[1..];
    }
  }

  // --------------------------------------------------------------------- page

  datatype Page = Spinner | ErrorMessage | NoStudents | Listing(total: nat, students: seq<Attempt>)

  /** What the page renders: the spinner while loading, then an error, then
      the empty notice when there is no data or an empty array; otherwise
      the ranking under "Total Students". */
  function ResultsPage(loading: bool, failed: bool, data: Fetched): (r: Page)
    ensures r.Listing? ==> r.total == |r.students| == |Normalise(data)| > 0
    ensures r.Listing? ==> r.students == Rank(data)
    ensures !loading && !failed ==> (r.NoStudents? <==> Normalise(data) == [])
    ensures loading ==> r == Spinner
    ensures !loading && failed ==> r == ErrorMessage
    ensures !loading && !failed && Normalise(data) != [] ==> r.Listing?
  {
    if loading then Spinner
    else if failed then ErrorMessage
    else if data.NoData? || (data.Many? && |data.attempts| == 0) then NoStudents
    else
      var ranked := Rank(data);
      Listing(|ranked|, ranked)
  }
}

=== FILE: subscriptions.dfy ===
/** The subscription endpoints: listing one's own subscriptions, subscribing
    to a plan, cancelling and reading the current subscription. The
    subscription table is a sequence; a user's "active subscription" is
    what `Subscription.objects.get(user=..., is_active=True)` finds. */
module Subscriptions {
  import opened Optional
  import opened Basics

  /** A plan as the views read it: `exam_limit == 0` means unlimited. */
  datatype Plan = Plan(id: nat, name: string, examLimit: nat)

  datatype Subscription = Subscription(
    id: nat,
    user: UserId,
    plan: Plan,
    startDate: Instant,
    endDate: Option<Instant>,
    isActive: bool,
    examsCreated: nat)

  predicate ActiveFor(s: Subscription, user: UserId) {
    s.user == user && s.isActive
  }

  /** The outcome of the ORM `get`: no row (DoesNotExist), exactly one row,
      or several rows (MultipleObjectsReturned). */
  datatype Lookup = NoneActive | Unique(index: nat) | Several

  /** The positions of the user's active subscriptions, in table order. */
  function ActiveIndices(subs: seq<Subscription>, user: UserId): (r: seq<nat>)
    ensures forall k :: 0 <= k < |r| ==> r[k] < |subs| && ActiveFor(subs[r[k]], user)
    ensures forall i :: 0 <= i < |subs| && ActiveFor(subs[i], user) ==> i in r
    ensures forall k, m :: 0 <= k < m < |r| ==> r[k] < r[m]
    decreases |subs|
  {
    if |subs| == 0 then []
    else
      var init := ActiveIndices(subs[..|subs| - 1], user);
      if ActiveFor(subs[|subs| - 1], user) then init + [|subs| - 1] else init
  }

  function ActiveLookup(subs: seq<Subscription>, user: UserId): (r: Lookup)
    ensures r.NoneActive? <==> forall i :: 0 <= i < |subs| ==> !ActiveFor(subs[i], user)
    ensures r.Unique? ==> r.index < |subs| && ActiveFor(subs[r.index], user)
    ensures r.Unique? ==> forall j :: 0 <= j < |subs| && j != r.index ==> !ActiveFor(subs[j], user)
    ensures r.Several? ==> exists i, j :: 0 <= i < j < |subs| && ActiveFor(subs[i], user) && ActiveFor(subs[j], user)
  {
    var found := ActiveIndices(subs, user);
    if |found| == 0 then NoneActive
    else if |found| == 1 then Unique(found[0])
    else
      assert found[0] < found[1];
      Several
  }

  /** The database keeps one subscription row per user (a one-to-one field). */
  predicate OneRowPerUser(subs: seq<Subscription>) {
    forall i, j :: 0 <= i < j < |subs| ==> subs[i].user != subs[j].user
  }

  lemma OneRowPerUserNeverSeveral(subs: seq<Subscription>, user: UserId)
    requires OneRowPerUser(subs)
    ensures !ActiveLookup(subs, user).Several?
  {
  }

  /** `get_queryset`: the rows a user may see through the viewset. */
  function OwnSubscriptions(subs: seq<Subscription>, user: UserId): (r: seq<Subscription>)
    ensures forall k :: 0 <= k < |r| ==> r[k].user == user
    ensures forall s: Subscription :: s.user == user ==> multiset(r)[s] == multiset(subs)[s]
    ensures |r| <= |subs|
    decreases |subs|
  {
    if |subs| == 0 then []
    else
      var init := subs[..|subs| - 1];
      var last := subs[|subs| - 1];
      assert subs == init + [last];
      if last.user == user then OwnSubscriptions(init, user) + [last] else OwnSubscriptions(init, user)
  }

  datatype CancelResponse = Cancelled | NoActiveSubscription | ServerError

  /** `cancel`: deactivate the user's active subscription and stamp its end
      date with the current instant. */
  function Cancel(subs: seq<Subscription>, user: UserId, now: Instant): (r: (CancelResponse, seq<Subscription>))
    ensures r.0 == Cancelled <==> ActiveLookup(subs, user).Unique?
    ensures r.0 == NoActiveSubscription <==> ActiveLookup(subs, user).NoneActive?
    ensures r.0 != Cancelled ==> r.1 == subs
    ensures r.0 == Cancelled ==>
      var i := ActiveLookup(subs, user).index;
      && |r.1| == |subs|
      && r.1[i] == subs[i].(isActive := false, endDate := Some(now))
      && (forall j :: 0 <= j < |subs| && j != i ==> r.1[j] == subs[j])
  {
    match ActiveLookup(subs, user)
    case NoneActive => (NoActiveSubscription, subs)
    case Several => (ServerError, subs)
    case Unique(i) => (Cancelled, subs[i := subs[i].(isActive := false, endDate := Some(now))])
  }

  /** After a successful cancel the user has no active subscription, and a
      second cancel answers not-found. */
  lemma CancelLeavesNoActive(subs: seq<Subscription>, user: UserId, now: Instant, later: Instant)
    requires Cancel(subs, user, now).0 == Cancelled
    ensures ActiveLookup(Cancel(subs, user, now).1, user) == NoneActive
    ensures Cancel(Cancel(subs, user, now).1, user, later).0 == NoActiveSubscription
  {
  }

  /** Cancelling touches nobody else's active subscription. */
  lemma CancelKeepsOtherUsers(subs: seq<Subscription>, user: UserId, other: UserId, now: Instant)
    requires other != user
    ensures ActiveIndices(Cancel(subs, user, now).1, other) == ActiveIndices(subs, other)
  {
    var after := Cancel(subs, user, now).1;
    assert |after| == |subs|;
    assert forall i :: 0 <= i < |subs| ==> (ActiveFor(after[i], other) <==> ActiveFor(subs[i], other));
    ActiveIndicesAgree(subs, after, other);
  }

  lemma {:induction false} ActiveIndicesAgree(a: seq<Subscription>, b: seq<Subscription>, user: UserId)
    requires |a| == |b|
    requires forall i :: 0 <= i < |a| ==> (ActiveFor(a[i], user) <==> ActiveFor(b[i], user))
    ensures ActiveIndices(a, user) == ActiveIndices(b, user)
    decreases |a|
  {
    if |a| > 0 {
      ActiveIndicesAgree(a[..|a| - 1], b[..|b| - 1], user);
    }
  }

  lemma CancelKeepsOneRowPerUser(subs: seq<Subscription>, user: UserId, now: Instant)
    requires OneRowPerUser(subs)
    ensures OneRowPerUser(Cancel(subs, user, now).1)
  {
  }

  datatype CurrentResponse = Current(subscription: Subscription) | NoSubscription | CurrentServerError

  /** `current`: the user's active subscription, or not-found. */
  function CurrentSubscription(subs: seq<Subscription>, user: UserId): (r: CurrentResponse)
    ensures r.Current? ==> r.subscription in subs && ActiveFor(r.subscription, user)
    ensures r.NoSubscription? <==> forall s :: s in subs ==> !ActiveFor(s, user)
    ensures OneRowPerUser(subs) ==> !r.CurrentServerError?
    ensures r.CurrentServerError? <==> ActiveLookup(subs, user).Several?
    ensures ActiveLookup(subs, user).Unique? ==> r == Current(subs[ActiveLookup(subs, user).index])
  {
    match ActiveLookup(subs, user)
    case NoneActive => NoSubscription
    case Several => CurrentServerError
    case Unique(i) => Current(subs[i])
  }

  /** How `subscribe` classifies a request. The source computes `switch` and
      `new` but then falls off the end of the handler and returns `None`,
      which Django REST framework refuses as a response, so the client gets
      a server error on both; `Switch` and `New` name the classification of
      such a failing request. No path writes to the subscription table. `PlanLookupError` is the
      uncaught DoesNotExist of the plan lookup (a server error), and
      `SubscribeServerError` the uncaught MultipleObjectsReturned of the
      subscription lookup. */
  datatype SubscribeOutcome =
    | PlanLookupError
    | AlreadySubscribed
    | Switch(from: Plan, to: Plan)
    | New(to: Plan)
    | SubscribeServerError

  /** `SubscriptionPlan.objects.get(id=plan_id)`; plan ids are primary keys. */
  function FindPlan(plans: seq<Plan>, planId: Option<nat>): (r: Option<Plan>)
    ensures r.Some? ==> r.value in plans && planId == Some(r.value.id)
    ensures r.None? ==> planId.None? || forall p :: p in plans ==> p.id != planId.value
    decreases |plans|
  {
    if planId.None? || |plans| == 0 then None
    else if plans[0].id == planId.value then Some(plans[0])
    else FindPlan(plans[1..], planId)
  }

  function Subscribe(subs: seq<Subscription>, plans: seq<Plan>, planId: Option<nat>, user: UserId): (r: SubscribeOutcome)
    ensures r.PlanLookupError? <==> FindPlan(plans, planId).None?
    ensures r.AlreadySubscribed? <==>
      FindPlan(plans, planId).Some? && ActiveLookup(subs, user).Unique?
      && Some(subs[ActiveLookup(subs, user).index].plan.id) == planId
    ensures r.Switch? ==>
      && ActiveLookup(subs, user).Unique?
      && r.from == subs[ActiveLookup(subs, user).index].plan
      && Some(r.to) == FindPlan(plans, planId)
      && r.from.id != r.to.id
    ensures (FindPlan(plans, planId).Some? && ActiveLookup(subs, user).Unique?
      && Some(subs[ActiveLookup(subs, user).index].plan.id) != planId) ==> r.Switch?
    ensures r.New? <==> FindPlan(plans, planId).Some? && ActiveLookup(subs, user).NoneActive?
    ensures r.New? ==> Some(r.to) == FindPlan(plans, planId)
    ensures r.SubscribeServerError? <==> FindPlan(plans, planId).Some? && ActiveLookup(subs, user).Several?
  {
    match FindPlan(plans, planId)
    case None => PlanLookupError
    case Some(plan) =>
      match ActiveLookup(subs, user)
      case NoneActive => New(plan)
      case Several => SubscribeServerError
      case Unique(i) => if subs[i].plan.id == plan.id then AlreadySubscribed else Switch(subs[i].plan, plan)
  }

  /** Once a subscription is cancelled, subscribing to any existing plan is
      classified as a new subscription. */
  lemma SubscribeAfterCancelIsNew(subs: seq<Subscription>, plans: seq<Plan>, planId: Option<nat>, user: UserId, now: Instant)
    requires Cancel(subs, user, now).0 == Cancelled
    requires FindPlan(plans, planId).Some?
    ensures Subscribe(Cancel(subs, user, now).1, plans, planId, user).New?
  {
  }

  /** `subscribe` answers "already subscribed" exactly when `current` shows a
      subscription to the requested plan. */
  lemma SubscribeAgreesWithCurrent(subs: seq<Subscription>, plans: seq<Plan>, planId: Option<nat>, user: UserId)
    requires FindPlan(plans, planId).Some?
    ensures Subscribe(subs, plans, planId, user).AlreadySubscribed? <==>
      CurrentSubscription(subs, user).Current? && Some(CurrentSubscription(subs, user).subscription.plan.id) == planId
    ensures Subscribe(subs, plans, planId, user).New? <==> CurrentSubscription(subs, user).NoSubscription?
  {
  }
}

=== FILE: tags.dfy ===
/** The comma-separated tag input: JavaScript's `split(",")`, `trim()` and
    the filter that drops empty tags. */
module Tags {
  import Lists

  /** The characters `String.prototype.trim` strips: ECMAScript white space
      and line terminators. */
  predicate IsSpace(c: char) {
    || c == '\t' || c == '\n' || c == '\U{000B}' || c == '\U{000C}' || c == '\r' || c == ' '
    || c == '\U{00A0}' || c == '\U{1680}' || ('\U{2000}' <= c <= '\U{200A}')
    || c == '\U{2028}' || c == '\U{2029}' || c == '\U{202F}' || c == '\U{205F}' || c == '\U{3000}' || c == '\U{FEFF}'
  }

  predicate AllSpace(s: string) {
    forall k :: 0 <= k < |s| ==> IsSpace(s[k])
  }

  /** Neither end of `s` is white space. */
  predicate Trimmed(s: string) {
    s == "" || (!IsSpace(s[0]) && !IsSpace(s[|s| - 1]))
  }

  // ------------------------------------------------------------------- split

  /** `s.split(",")`: the pieces between commas; always at least one. */
  function Split(s: string): (r: seq<string>)
    ensures |r| >= 1
    ensures forall k :: 0 <= k < |r| ==> ',' !in r[k]
    decreases |s|
  {
    if |s| == 0 then [""]
    else if s[0] == ',' then [""] + Split(s[1..])
    else
      var rest := Split(s[1..]);
      [[s[0]] + rest[0]] + rest[1..]
  }

  /** `parts.join(",")`. */
  function Join(parts: seq<string>): string
    decreases |parts|
  {
    if |parts| == 0 then ""
    else if |parts| == 1 then parts[0]
    else parts[0] + "," + Join(parts[1..])
  }

  /** Joining the pieces gives back the string that was split. */
  lemma {:induction false} JoinSplit(s: string)
    ensures Join(Split(s)) == s
    decreases |s|
  {
    if |s| > 0 {
      JoinSplit(s[1..]);
      var rest := Split(s[1..]);
      if s[0] == ',' {
        assert Split(s) == [""] + rest;
        assert Split(s)[1..] == rest;
      } else {
        var r := Split(s);
        assert r[0] == [s[0]] + rest[0];
        assert r[1..] == rest[1..];
        if |rest| == 1 {
          assert Join(r) == [s[0]] + rest[0];
        } else {
          assert Join(r) == r[0] + "," + Join(rest[1..]);
          assert Join(rest) == rest[0] + "," + Join(rest[1..]);
        }
        assert s == [s[0]] + s[1..];
      }
    }
  }

  /** Splitting a comma-free piece prepended to the rest of a split. */
  lemma {:induction false} SplitPrefix(p: string, t: string)
    requires ',' !in p
    ensures Split(p + t) == [p + Split(t)[0]] + Split(t)[1..]
    decreases |p|
  {
    if |p| > 0 {
      assert (p + t)[1..] == p[1..] + t;
      assert ',' !in p[1..] by { assert forall c :: c in p[1..] ==> c in p; }
      SplitPrefix(p[1..], t);
      assert p + t == [p[0]] + (p[1..] + t);
      assert [p[0]] + (p[1..] + Split(t)[0]) == p + Split(t)[0];
    } else {
      assert p + t == t;
      assert p + Split(t)[0] == Split(t)[0];
      assert Split(t) == [Split(t)[0]] + Split(t)[1..];
    }
  }

  /** Splitting a join of comma-free pieces gives back the pieces. */
  lemma {:induction false} SplitJoin(parts: seq<string>)
    requires |parts| >= 1
    requires forall k :: 0 <= k < |parts| ==> ',' !in parts[k]
    ensures Split(Join(parts)) == parts
    decreases |parts|
  {
    if |parts| == 1 {
      SplitPrefix(parts[0], "");
      assert parts[0] + "" == parts[0];
      assert parts[0] + Split("")[0] == parts[0];
    } else {
      var tail := Join(parts[1..]);
      SplitJoin(parts[1..]);
      assert parts[0] + "," + tail == parts[0] + ("," + tail);
      SplitPrefix(parts[0], "," + tail);
      assert ("," + tail)[1..] == tail;
      assert Split("," + tail) == [""] + parts[1..];
      assert parts[0] + "" == parts[0];
      assert parts == [parts[0]] + parts[1..];
    }
  }

  // -------------------------------------------------------------------- trim

  function TrimStart(s: string): (r: string)
    ensures |r| <= |s| && r == s[|s| - |r|..]
    ensures AllSpace(s[..|s| - |r|])
    ensures r == "" || !IsSpace(r[0])
    decreases |s|
  {
    if |s| > 0 && IsSpace(s[0]) then TrimStart(s[1..]) else s
  }

  function TrimEnd(s: string): (r: string)
    ensures |r| <= |s| && r == s[..|r|]
    ensures AllSpace(s[|r|..])
    ensures r == "" || !IsSpace(r[|r| - 1])
    decreases |s|
  {
    if |s| > 0 && IsSpace(s[|s| - 1]) then TrimEnd(s[..|s| - 1]) else s
  }

  /** `s.trim()`: the middle of `s` between white space runs at both ends. */
  function Trim(s: string): (r: string)
    ensures Trimmed(r)
    ensures exists i, j :: 0 <= i <= j <= |s| && r == s[i..j] && AllSpace(s[..i]) && AllSpace(s[j..])
  {
    var head := TrimStart(s);
    var r := TrimEnd(head);
    var i := |s| - |head|;
    assert r == s[i..i + |r|];
    assert s[i + |r|..] == head[|r|..];
    assert Trimmed(r) by {
      if r != "" {
        assert r[0] == head[0];
      }
    }
    r
  }

  lemma TrimOfTrimmed(s: string)
    requires Trimmed(s)
    ensures Trim(s) == s
  {
  }

  // -------------------------------------------------------------- tag parsing

  /** A well-formed tag: non-empty, comma-free and without surrounding space. */
  predicate CleanTag(t: string) {
    t != "" && ',' !in t && Trimmed(t)
  }

  /** `.map((tag) => tag.trim()).filter((tag) => tag !== "")`. */
  function TrimAndDropEmpty(pieces: seq<string>): (r: seq<string>)
    ensures |r| <= |pieces|
    ensures forall k :: 0 <= k < |r| ==> r[k] != "" && Trimmed(r[k])
    ensures (forall k :: 0 <= k < |pieces| ==> ',' !in pieces[k]) ==> forall k :: 0 <= k < |r| ==> ',' !in r[k]
    decreases |pieces|
  {
    if |pieces| == 0 then []
    else
      var t := Trim(pieces[0]);
      assert ',' !in pieces[0] ==> ',' !in t;
      assert forall k :: 0 <= k < |pieces[1..]| ==> pieces[1..][k] == pieces[k + 1];
      if t == "" then TrimAndDropEmpty(pieces[1..]) else [t] + TrimAndDropEmpty(pieces[1..])
  }

  /** The tags a comma-separated string yields. */
  function ParseTags(s: string): (r: seq<string>)
    ensures forall k :: 0 <= k < |r| ==> CleanTag(r[k])
  {
    TrimAndDropEmpty(Split(s))
  }

  lemma TrimAndDropEmptyCons(x: string, xs: seq<string>)
    ensures TrimAndDropEmpty([x] + xs) == (if Trim(x) == "" then [] else [Trim(x)]) + TrimAndDropEmpty(xs)
  {
  }

  lemma {:induction false} TrimAndDropEmptyAppend(a: seq<string>, b: seq<string>)
    ensures TrimAndDropEmpty(a + b) == TrimAndDropEmpty(a) + TrimAndDropEmpty(b)
    decreases |a|
  {
    if |a| > 0 {
      var head := if Trim(a[0]) == "" then [] else [Trim(a[0])];
      TrimAndDropEmptyAppend(a[1..], b);
      Lists.HeadTail(a);
      Lists.ConsAppend(a, b);
      TrimAndDropEmptyCons(a[0], a[1..] + b);
      TrimAndDropEmptyCons(a[0], a[1..]);
      Lists.AppendAssoc(head, TrimAndDropEmpty(a[1..]), TrimAndDropEmpty(b));
    } else {
      assert a + b == b;
    }
  }

  lemma {:induction false} TrimAndDropEmptyOfClean(tags: seq<string>)
    requires forall k :: 0 <= k < |tags| ==> CleanTag(tags[k])
    ensures TrimAndDropEmpty(tags) == tags
    decreases |tags|
  {
    if |tags| > 0 {
      var rest := tags[1..];
      assert forall k :: 0 <= k < |rest| ==> CleanTag(rest[k]) by {
        forall k | 0 <= k < |rest| ensures CleanTag(rest[k]) {
          assert rest[k] == tags[k + 1];
        }
      }
      TrimAndDropEmptyOfClean(rest);
      TrimOfTrimmed(tags[0]);
      assert Trim(tags[0]) == tags[0];
      assert tags[0] != "";
      assert TrimAndDropEmpty(tags) == [tags[0]] + rest;
      Lists.HeadTail(tags);
    }
  }

  /** Parsing the comma-join of well-formed tags gives back the same tags, in
      the same order. */
  lemma ParseJoinedTags(tags: seq<string>)
    requires forall k :: 0 <= k < |tags| ==> CleanTag(tags[k])
    ensures ParseTags(Join(tags)) == tags
  {
    if |tags| == 0 {
      assert Trim("") == "";
    } else {
      SplitJoin(tags);
      TrimAndDropEmptyOfClean(tags);
    }
  }

  /** Text on either side of a comma is parsed independently and the tags are
      kept in input order. */
  lemma ParseTagsSplitsAtComma(a: string, b: string)
    requires ',' !in a
    ensures ParseTags(a + "," + b) == ParseTags(a) + ParseTags(b)
  {
    assert a + "," + b == a + ("," + b);
    SplitPrefix(a, "," + b);
    assert ("," + b)[1..] == b;
    assert Split("," + b) == [""] + Split(b);
    assert a + "" == a;
    SplitPrefix(a, "");
    assert Split(a) == [a];
    assert Split(a + "," + b) == [a] + Split(b);
    TrimAndDropEmptyAppend([a], Split(b));
  }
}
